=== FILE: README.md ===
# dnsdist DNS-over-HTTPS dispatch and raw-UDP reply rewriting, in Dafny

This project models two pieces of PowerDNS code.

**The DoH query path of dnsdist** (`pdns/dnsdistdist/doh.cc`):

- `all_test` takes the `dns` variable out of a GET request path. It maps base64url back to standard base64 and hands the decoded message on.
- `processDOHQuery` takes one decoded query through a fixed chain of exits: header check, query rules, self-answer, ECS insertion failure, cache hit, no backend.
- A query that passes every exit claims a slot in the chosen backend's table of in-flight queries (`idStates`). The slot is the one at the backend's cursor `idOffset` modulo the table size. The query's ID field then holds the low 16 bits of the slot index, in host byte order (there is no `htons`), so on a little-endian host the backend reads it byte-swapped. A slot that still holds an unanswered query is reused, and that reuse is counted as a downstream timeout.

**The raw-socket DNS interceptor** (`pdns/rawudp.cc`):

- `getPacket` splits a captured IPv4/UDP datagram into endpoints and payload.
- `ip_checksum` is the Internet checksum of RFC 1071.
- `main` turns a blocked query into a spoofed reply. It swaps the endpoints, splices in the recursor's answer under the query's DNS ID, rewrites both length fields, zeroes the UDP checksum and recomputes the IPv4 header checksum.

The modules are:

- `Wire`: bytes, 16-bit network-order fields, and writing bytes into a buffer.
- `Checksum`: the RFC 1071 checksum as `ip_checksum` computes it. It comes as a recursive reference definition and as the loop itself.
- `RawUdp`: `getPacket`, the spoofed reply, and one iteration of `main`'s capture loop.
- `DohParams`: the `?dns=` extraction, the base64url-to-base64 mapping, and `all_test`'s outcome.
- `Slots`: backends, slots, and the slot claim.
- `Dispatch`: `processDOHQuery` as one pure step over the global counters and the backends.

Code that these functions call but do not define is modelled as an input. This covers the header check, the rule chains, the selection policy, ECS insertion, the packet cache and the send. Each step reports which of those calls it made.

## Model

| member | source | states |
|---|---|---|
| Checksum.IpChecksum | pdns/rawudp.cc:112-141 | The loop over 16-bit words, with the odd trailing byte as a high-order byte, computes exactly the reference checksum: the complement of the ones'-complement sum. |
| Checksum.Checksum | pdns/rawudp.cc:112-141 | The checksum is never 0xffff, and the checksum of no data is 0. |
| Checksum.Fold | pdns/rawudp.cc:117-137 | Starting from 0xffff and folding each carry back in keeps the accumulator within 1..0xffff. |
| Checksum.AddFold | pdns/rawudp.cc:123-126 | One loop step keeps the accumulator in 1..0xffff and congruent, modulo 0xffff, to the plain sum. |
| Checksum.FoldIsOnesSum | pdns/rawudp.cc:117-137 | The accumulator equals the ones'-complement sum of the words, whatever the order the carries were folded in. |
| Checksum.Words | pdns/rawudp.cc:120-133 | The words the checksum adds: each complete pair read in network order, plus a trailing odd byte as the high byte of a zero-padded word. |
| Checksum.ChecksumWordOrder | pdns/rawudp.cc:120-127 | Any reordering of the 16-bit words leaves the checksum unchanged. |
| Checksum.ChecksumVerifies | pdns/rawudp.cc:221-222 | Zero the checksum field, compute the checksum, and write it into the field: the checksum over the whole data is then 0. |
| RawUdp.GetPacket | pdns/rawudp.cc:73-85 | The source and destination come from the IP addresses and UDP ports. The payload is everything from offset 4*ihl+8, so the headers plus the payload give back the capture. |
| RawUdp.SpoofReply | pdns/rawudp.cc:199-227 | The reply is as long as the IP and UDP headers plus the recursor's answer. |
| RawUdp.SpoofReplySwaps | pdns/rawudp.cc:204-210 | The reply swaps the IP addresses and the UDP ports. Every other header byte outside the rewritten fields is as captured. |
| RawUdp.SpoofReplyLengths | pdns/rawudp.cc:212-224 | ip_len counts the IP header, the UDP header and the answer; uh_ulen counts the UDP header and the answer; uh_sum is 0. The payload is the answer with the query's DNS ID. |
| RawUdp.SpoofReplyChecksum | pdns/rawudp.cc:221-222 | The IPv4 header checksum of the reply verifies to 0. The stored field equals the checksum of the header with that field zeroed. |
| RawUdp.SpoofReplyVerdict | pdns/rawudp.cc:199-227 | The reply's headers sit where the query's did, its IPv4 header checksum verifies, its endpoints are the query's reversed, and its payload is the recursor's answer under the query's DNS ID. |
| RawUdp.SpoofReplyRoundTrip | pdns/rawudp.cc:199-227 | Capturing the reply gives the query's endpoints reversed, and as payload the answer under the query's DNS ID. |
| RawUdp.HandleCapture | pdns/rawudp.cc:164-234 | A packet not for port 53 is ignored. An unblocked query is passed on unchanged. A blocked one gets a spoofed reply back to the client: endpoints reversed, the recursor's answer under the query's DNS ID as payload, and an IPv4 header whose checksum verifies. |
| DohParams.CutValue | pdns/dnsdistdist/doh.cc:277-282 | The value kept is the longest prefix with no space or NUL in it. |
| DohParams.DnsValue | pdns/dnsdistdist/doh.cc:275-282 | A value exists exactly when a query string with more than five characters starts with `?dns=`. The value is then the text after the prefix, up to the first space or NUL. |
| DohParams.UrlToStd | pdns/dnsdistdist/doh.cc:283-284 | Each `-` becomes `+` and each `_` becomes `/`, character for character. No base64url character is left. |
| DohParams.StdToUrl | pdns/dnsdistdist/doh.cc:283-284 | The inverse alphabet map of the encoder, character for character. |
| DohParams.UrlRoundTrip | pdns/dnsdistdist/doh.cc:283-284 | Text in the base64url alphabet survives mapping to standard base64 and back. |
| DohParams.StdRoundTrip | pdns/dnsdistdist/doh.cc:283-284 | Standard base64 text survives mapping to base64url and back. |
| DohParams.UrlToStdIdempotent | pdns/dnsdistdist/doh.cc:283-284 | Applying the mapping a second time changes nothing. |
| DohParams.AllTest | pdns/dnsdistdist/doh.cc:275-300 | Nothing happens without a `dns` value. Decoding fails exactly when the mapped value does not decode. A decoded message whose question name does not parse ends the handler with the exception and is not queued. Otherwise, and only then, the decoded message is queued. |
| DohParams.ReplaceChar | pdns/dnsdistdist/doh.cc:283-284 | Every occurrence of one character is replaced and nothing else changes. |
| Slots.Claim | pdns/dnsdistdist/doh.cc:183-225 | The slot claimed is the cursor modulo the table size, and the cursor advances by one. A free slot raises outstanding; an occupied one raises reuseds. Every field of the slot is overwritten: age 0, the client's ID, flags, addresses, send time, delay, cache key, cache and ECS flags. No other slot changes. |
| Slots.ClaimCorrelates | pdns/dnsdistdist/doh.cc:231 | With at most 65536 slots, the ID field sent (in host byte order) equals the slot index, so the same field of the answer names the slot holding the client's ID and flags. |
| Slots.ClaimMany | pdns/dnsdistdist/doh.cc:183-192 | Each claim advances the cursor by one and adds one to outstanding or to reuseds. |
| Slots.OccupancyStep | pdns/dnsdistdist/doh.cc:183-192 | For a frontend whose descriptor is not negative: past a run of claims from an idle table, the next claim lands on a free slot, and the run of occupied slots grows by that slot alone. |
| Slots.ClaimsFromIdle | pdns/dnsdistdist/doh.cc:183-192 | For a frontend whose descriptor is not negative: from an idle table, the first n claims (n at most the table size) raise outstanding by n and count no reuse. The slots in use are exactly the n from the starting cursor on. |
| Slots.ClaimPastCapacityReuses | pdns/dnsdistdist/doh.cc:183-192 | For a frontend whose descriptor is not negative: after as many claims as there are slots, the next claim reuses a slot still in use. That adds one to reuseds and nothing to outstanding. |
| Slots.ClaimsWithoutDescriptor | pdns/dnsdistdist/doh.cc:183-195 | For a frontend whose descriptor is negative, every claimed slot is recorded with that descriptor and so still looks free: from an idle table no claim, however many, counts a reuse, and outstanding grows by one per claim, past the table size too. |
| Dispatch.ProcessDohQuery | pdns/dnsdistdist/doh.cc:31-246 | Only a query that passes every exit and has a backend chosen is forwarded, to that backend. No other path touches a backend. ECS is tried exactly when the query and the chosen backend, or the pool when none is chosen, ask for it. The cache is asked for stale entries only when no backend is chosen. An XPF record is added exactly when the query is forwarded, the query asks for XPF and the backend has an XPF code. |
| Dispatch.Route | pdns/dnsdistdist/doh.cc:94-239 | Past the rules, only a query that passes the ECS and cache exits and has a backend chosen is forwarded. ECS is tried exactly when the query asks for it and the chosen backend, or the pool when none is chosen, wants it. The cache is consulted unless absent or skipped, and for stale entries only without a backend. |
| Dispatch.SelfAnswer | pdns/dnsdistdist/doh.cc:67-92 | A response made by the rules is prepared with its flags restored, unless the frontend is muted or the response rules drop it. selfAnswered counts exactly the prepared responses; the send itself is commented out. |
| Dispatch.NoBackendExit | pdns/dnsdistdist/doh.cc:146-175 | noPolicy is always counted. A SERVFAIL response is prepared only when configured, not muted and allowed by the response rules; it keeps the ID, restores the flags, then sets QR and the code. Its send is commented out. |
| Dispatch.Forward | pdns/dnsdistdist/doh.cc:177-239 | One more query on the backend. The slot at the cursor is claimed and the ID field becomes the slot index truncated to 16 bits, in host byte order. A reuse counts as a downstream timeout. A failed send counts on the backend and globally. No other backend changes. |
| Dispatch.EarlyExits | pdns/dnsdistdist/doh.cc:49-65 | A bad header, an unparsable name or a drop by the rules ends the call with nothing counted. A failed ECS insertion does too (lines 112-116). |
| Dispatch.SelfAnswerPath | pdns/dnsdistdist/doh.cc:67-92 | The self-answered path in terms of the whole step: when a response is prepared, what it holds, and that selfAnswered grows exactly when one is. |
| Dispatch.CachePath | pdns/dnsdistdist/doh.cc:119-144 | A hit that the response rules accept ends the call and counts one hit, muted or not; the outcome records whether the frontend was muted, where the commented-out send would have been skipped. A hit never reaches a backend. A lookup that misses counts one miss. |
| Dispatch.NoBackendPath | pdns/dnsdistdist/doh.cc:146-175 | Past every exit with no backend, noPolicy grows by one. The SERVFAIL condition and fields match the source. |
| Dispatch.ForwardPath | pdns/dnsdistdist/doh.cc:177-239 | The forwarded step in full: queries, cursor, claimed slot, slot contents (the cache key only when the cache was consulted, the EDNS and ECS flags only when ECS was inserted), outstanding or reuseds, downstream timeouts, send errors, and the sent ID equal to the slot index truncated to 16 bits. |

## Left out

- Sockets, h2o, threads and the socket pair between the HTTP side and the dispatcher are not modelled. The same goes for logging and `doLatencyStats`. Captures, the recursor's answer and send results are inputs.
- `checkQueryHeaders`, `processQuery`, `processResponse`, the selection policy, `handleEDNSClientSubnet`, `packetCache->get`, `addXPF`, `udpClientSendRequestToBackend` and `restoreFlags` are not part of this model. Their outcomes are inputs of the step. `restoreFlags` is a function parameter. The Lua lock around a Lua policy has no observable effect in a single step.
- Parsing the question name is an input in both places: `Env.parsed` in `processDOHQuery`, and the `parses` parameter of `AllTest` for the parse at line 294. What happens to the exception that escapes `all_test` is not modelled; the parsed name itself is only printed there.
- `B64Decode` is a function parameter of `AllTest`; a negative return is `None`.
- DohParams.DnsValue: `strchr` runs to the first NUL, which may lie beyond the request path. The model stops at the end of the path. It also requires the query offset to lie within the path, where the source's unsigned subtraction would wrap.
- Slots.Claim: the cursor `idOffset` is unbounded here. Its declaration is not part of this model, so a wrap-around of the unsigned counter is not modelled.
- The `cs` pointer, `tempFailureTTL`, `qTag`, `uniqueId` and the packet cache pointer in a slot are not kept. The model only keeps whether a cache was present.
- `ClientState cs` is default-constructed inside `processDOHQuery`. Its descriptor (recorded as `origFD`), its muted flag and its listening address are inputs. The declaration of `ClientState` is not part of this model, so its default descriptor is not known here.
- Slots.ClaimPastCapacityReuses: like Slots.OccupancyStep and Slots.ClaimsFromIdle, it holds only for a frontend whose descriptor is not negative. With a negative one, a claimed slot keeps looking free, so reuses are never counted (Slots.ClaimsWithoutDescriptor). If the default `cs` of line 36 has a negative descriptor, the DoH path never detects a reuse.
- The responses prepared on the self-answer, cache-hit and SERVFAIL paths are never sent: the `sendUDPResponse` calls at lines 84, 135 and 167 are commented out. The model prepares and counts them as the source does, and sends nothing.
- Atomic counters and concurrent claims are not modelled; a step is one whole call.
- Matching backend responses back to slots happens in code outside these files. Only the ID correlation is stated (Slots.ClaimCorrelates).
- RawUdp.SpoofReply and the lemmas about it require an IPv4 header of at least five words. They also require a full DNS header in both the query and the answer: `MOADNSParser` parses both before the rewrite. A shorter `ip_hl` would make the rewritten fields overlap; that case is not modelled.
- RawUdp.HandleCapture: every capture to port 53 must carry a full DNS header in its payload, and the recursor's answer must be 12 to 1500 bytes, blocked or not. These preconditions stand for the two `MOADNSParser` parses (lines 170 and 182), whose exceptions end `main` and are not modelled. Only a blocked query must also have an IPv4 header of at least five words. A capture to any other port needs only the bytes `getPacket` reads.
- How `main` decides that an answer is blocked (an A record equal to `172.16.1.3`) is the `blocked` input of `HandleCapture`. `MOADNSParser` is not part of this model.
- The tail of the reply buffer beyond the captured packet is left uninitialised in the source. Here it is zeros; it is never part of the reply sent.
- A failed `recvfrom` in `getPacket` and the `unixDie` exits of `main` are not modelled.
- `sendPacket` is modelled only by what `main` passes to it: the spoofed reply or the captured packet.

=== FILE: checksum.dfy ===
/** The Internet checksum of `ip_checksum` in pdns/rawudp.cc: the ones'-complement
    sum of the data read as 16-bit network-order words (section 4.1 of RFC 1071),
    accumulated from 0xffff with end-around carry, then complemented. */
module Checksum {
  import opened Wire

  /** 2^16 - 1: the modulus of ones'-complement 16-bit arithmetic. */
  const Mask: nat := 0xffff

  /** The `k`-th word the checksum adds: a complete pair of bytes read in
      network order, or a trailing odd byte as the high-order byte of a
      zero-padded word. */
  function WordAt(data: seq<Byte>, k: nat): U16
    requires k < (|data| + 1) / 2
  {
    if 2 * k + 1 < |data| then BE16(data, 2 * k) else (data[2 * k] as int) * 0x100
  }

  /** The words the checksum adds, in order. */
  function Words(data: seq<Byte>): (ws: seq<U16>)
    ensures |ws| == (|data| + 1) / 2
    ensures forall k :: 0 <= k < |data| / 2 ==> ws[k] == BE16(data, 2 * k)
    ensures |data| % 2 == 1 ==> ws[|ws| - 1] == (data[|data| - 1] as int) * 0x100
  {
    seq((|data| + 1) / 2, k requires 0 <= k < (|data| + 1) / 2 => WordAt(data, k))
  }

  /** Plain sum of the words. */
  function Sum(ws: seq<U16>): nat
  {
    if |ws| == 0 then 0 else Sum(ws[..|ws| - 1]) + ws[|ws| - 1]
  }

  /** One step of the loop: add a word and fold a carry out of bit 16 back in. */
  function AddFold(acc: nat, w: U16): (r: nat)
    requires 1 <= acc <= Mask
    ensures 1 <= r <= Mask
    ensures r % Mask == (acc + w) % Mask
  {
    if acc + w > Mask then acc + w - Mask else acc + w
  }

  /** The accumulator after adding `ws` one by one, starting from 0xffff. */
  function Fold(ws: seq<U16>): (acc: nat)
    ensures 1 <= acc <= Mask
  {
    if |ws| == 0 then Mask else AddFold(Fold(ws[..|ws| - 1]), ws[|ws| - 1])
  }

  /** The checksum value `ip_checksum` computes (before `htons` puts it in
      network order): the complement of the accumulator. */
  function Checksum(data: seq<Byte>): (c: U16)
    ensures c != Mask
    ensures |data| == 0 ==> c == 0
  {
    Mask - Fold(Words(data))
  }

  /** Reference definition: the ones'-complement sum of a natural number, i.e.
      the unique value in [1, 0xffff] congruent to it modulo 0xffff. */
  function OnesSum(n: nat): (r: nat)
    ensures 1 <= r <= Mask
    ensures r % Mask == n % Mask
  {
    (n + Mask - 1) % Mask + 1
  }

  lemma UniqueResidue(r: nat, n: nat)
    requires 1 <= r <= Mask
    requires r % Mask == n % Mask
    ensures r == OnesSum(n)
  {
    var q := (n + Mask - 1) / Mask;
    assert n + Mask - 1 == q * Mask + (n + Mask - 1) % Mask;
    if r == Mask {
      assert n % Mask == 0;
      assert (n + Mask - 1) % Mask == Mask - 1;
    } else {
      assert r % Mask == r;
      assert (n + Mask - 1) % Mask == r - 1;
    }
  }

  lemma CongruentAdd(a: nat, b: nat, w: nat)
    requires a % Mask == b % Mask
    ensures (a + w) % Mask == (b + w) % Mask
  {
    assert a == (a / Mask) * Mask + a % Mask;
    assert b == (b / Mask) * Mask + b % Mask;
    assert a + w == (a / Mask) * Mask + (a % Mask + w);
    assert b + w == (b / Mask) * Mask + (b % Mask + w);
  }

  /** The loop's accumulator is the ones'-complement sum of the words, whatever
      the order of the carries. */
  lemma {:induction false} FoldIsOnesSum(ws: seq<U16>)
    ensures Fold(ws) == OnesSum(Sum(ws))
  {
    if |ws| == 0 {
    } else {
      var init := ws[..|ws| - 1];
      var w := ws[|ws| - 1];
      FoldIsOnesSum(init);
      var r := Fold(ws);
      assert r % Mask == (Fold(init) + w) % Mask;
      CongruentAdd(Fold(init), Sum(init), w);
      UniqueResidue(r, Sum(ws));
    }
  }

  /** Closed form of the checksum over the data's words. */
  lemma ChecksumClosedForm(data: seq<Byte>)
    ensures Checksum(data) == Mask - OnesSum(Sum(Words(data)))
  {
    FoldIsOnesSum(Words(data));
  }

  /** Folding one more word of a sequence is one loop step. */
  lemma FoldStep(ws: seq<U16>, n: nat)
    requires n < |ws|
    ensures Fold(ws[..n + 1]) == AddFold(Fold(ws[..n]), ws[n])
  {
    assert ws[..n + 1][..n] == ws[..n];
  }

  /** `htons(~acc)` keeps the low 16 bits of the 32-bit complement, which
      for an accumulator in [1, 0xffff] is its 16-bit complement. */
  lemma NotTruncated(acc: nat)
    requires 1 <= acc <= Mask
    ensures (0xffff_ffff - acc) % 0x1_0000 == Mask - acc
  {
    assert 0xffff_ffff - acc == 0xffff * 0x1_0000 + (Mask - acc);
  }

  /** The loop of `ip_checksum`, with `uint32_t` accumulator and the final
      16-bit truncation of `~acc` written out. */
  method IpChecksum(data: seq<Byte>) returns (c: U16)
    ensures c == Checksum(data)
  {
    ghost var ws := Words(data);
    var acc: nat := 0xffff;
    var i: nat := 0;
    ghost var n: nat := 0;
    while i + 1 < |data|
      invariant i == 2 * n && i <= |data|
      invariant acc == Fold(ws[..n])
    {
      var word := BE16(data, i);
      assert ws[n] == word;
      FoldStep(ws, n);
      acc := acc + word;
      if acc > 0xffff {
        acc := acc - 0xffff;
      }
      i := i + 2;
      n := n + 1;
    }
    if |data| % 2 == 1 {
      var word := (data[|data| - 1] as int) * 0x100;
      assert n == |ws| - 1;
      FoldStep(ws, n);
      acc := acc + word;
      if acc > 0xffff {
        acc := acc - 0xffff;
      }
      assert ws[..|ws|] == ws;
    } else {
      assert ws[..n] == ws;
    }
    NotTruncated(acc);
    c := (0xffff_ffff - acc) % 0x1_0000;
  }

  lemma {:induction false} SumConcat(a: seq<U16>, b: seq<U16>)
    ensures Sum(a + b) == Sum(a) + Sum(b)
    decreases |b|
  {
    if |b| == 0 {
      assert a + b == a;
    } else {
      assert (a + b)[..|a + b| - 1] == a + b[..|b| - 1];
      SumConcat(a, b[..|b| - 1]);
    }
  }

  /** Removing the word at `j` removes one occurrence of it. */
  lemma MultisetRemoveAt(b: seq<U16>, j: nat)
    requires j < |b|
    ensures multiset(b[..j] + b[j + 1..]) == multiset(b) - multiset{b[j]}
  {
    assert b == b[..j] + [b[j]] + b[j + 1..];
    assert multiset(b) == multiset(b[..j]) + multiset{b[j]} + multiset(b[j + 1..]);
  }

  lemma SumSingleton(x: U16)
    ensures Sum([x]) == x
  {
    assert [x][..0] == [];
  }

  /** Removing the word at `j` lowers the sum by that word. */
  lemma SumRemoveAt(b: seq<U16>, j: nat)
    requires j < |b|
    ensures Sum(b) == Sum(b[..j] + b[j + 1..]) + b[j]
  {
    SplitAt(b, j);
    SumConcat(b[..j] + [b[j]], b[j + 1..]);
    SumConcat(b[..j], [b[j]]);
    SumConcat(b[..j], b[j + 1..]);
    SumSingleton(b[j]);
  }

  lemma SplitAt(b: seq<U16>, j: nat)
    requires j < |b|
    ensures b == b[..j] + [b[j]] + b[j + 1..]
  {
  }

  /** The sum of words depends only on which words occur, not on their order. */
  lemma {:induction false} SumPermutation(a: seq<U16>, b: seq<U16>)
    requires multiset(a) == multiset(b)
    ensures Sum(a) == Sum(b)
    decreases |a|
  {
    if |a| == 0 {
      assert |b| == |multiset(b)| == 0;
    } else {
      var x := a[|a| - 1];
      var a' := a[..|a| - 1];
      assert a == a' + [x];
      assert multiset(a') == multiset(a) - multiset{x};
      assert x in multiset(b);
      var j :| 0 <= j < |b| && b[j] == x;
      MultisetRemoveAt(b, j);
      SumPermutation(a', b[..j] + b[j + 1..]);
      SumRemoveAt(b, j);
    }
  }

  /** Reordering whole 16-bit words leaves the checksum unchanged. */
  lemma ChecksumWordOrder(a: seq<Byte>, b: seq<Byte>)
    requires multiset(Words(a)) == multiset(Words(b))
    ensures Checksum(a) == Checksum(b)
  {
    ChecksumClosedForm(a);
    ChecksumClosedForm(b);
    SumPermutation(Words(a), Words(b));
  }

  /** Replacing one word changes the sum by the difference. */
  lemma SumUpdate(ws: seq<U16>, j: nat, v: U16)
    requires j < |ws|
    ensures Sum(ws[j := v]) + ws[j] == Sum(ws) + v
  {
    SumRemoveAt(ws, j);
    SumRemoveAt(ws[j := v], j);
    assert ws[j := v][..j] + ws[j := v][j + 1..] == ws[..j] + ws[j + 1..];
  }

  lemma WordsPutAt(data: seq<Byte>, k: nat, v: U16, m: nat)
    requires k % 2 == 0 && k + 2 <= |data|
    requires m < (|data| + 1) / 2
    ensures Words(Put(data, k, ToBE16(v)))[m] == if m == k / 2 then v else Words(data)[m]
  {
    var d' := Put(data, k, ToBE16(v));
    if m < |data| / 2 {
      assert Words(d')[m] == BE16(d', 2 * m);
      if m == k / 2 {
        assert d'[k..k + 2] == ToBE16(v);
        assert d'[k] == ToBE16(v)[0] && d'[k + 1] == ToBE16(v)[1];
      } else {
        assert Words(data)[m] == BE16(data, 2 * m);
        assert d'[2 * m] == data[2 * m] && d'[2 * m + 1] == data[2 * m + 1];
      }
    } else {
      assert d'[|data| - 1] == data[|data| - 1];
    }
  }

  /** Writing a value into a word-aligned field rewrites exactly that word. */
  lemma WordsPut(data: seq<Byte>, k: nat, v: U16)
    requires k % 2 == 0 && k + 2 <= |data|
    ensures Words(Put(data, k, ToBE16(v))) == Words(data)[k / 2 := v]
  {
    var ws := Words(data);
    var ws' := Words(Put(data, k, ToBE16(v)));
    forall m | 0 <= m < |ws|
      ensures ws'[m] == ws[k / 2 := v][m]
    {
      WordsPutAt(data, k, v, m);
    }
  }

  /** Adding the complement of a ones'-complement sum gives negative zero. */
  lemma ComplementCancels(s: nat)
    ensures OnesSum(s + (Mask - OnesSum(s))) == Mask
  {
    var r := (s + Mask - 1) % Mask;
    var q := (s + Mask - 1) / Mask;
    assert s + Mask - 1 == q * Mask + r;
    var n := s + (Mask - OnesSum(s));
    assert n + Mask - 1 == q * Mask + (Mask - 1);
    assert (q * Mask + (Mask - 1)) % Mask == Mask - 1;
  }

  /** The verification rule of section 1 of RFC 1071: with the checksum field
      at an even offset first zeroed, computed, and then filled in, the checksum
      over the whole data comes out as 0. */
  lemma ChecksumVerifies(data: seq<Byte>, k: nat)
    requires k % 2 == 0 && k + 2 <= |data|
    requires data[k] == 0 && data[k + 1] == 0
    ensures Checksum(Put(data, k, ToBE16(Checksum(data)))) == 0
  {
    var c := Checksum(data);
    var ws := Words(data);
    WordsPut(data, k, c);
    assert ws[k / 2] == 0;
    SumUpdate(ws, k / 2, c);
    ChecksumClosedForm(data);
    ChecksumClosedForm(Put(data, k, ToBE16(c)));
    ComplementCancels(Sum(ws));
  }
}

=== FILE: dispatch.dfy ===
/** `processDOHQuery` of pdns/dnsdistdist/doh.cc as one step over the
    dispatcher's observable state: the global statistics and the backends.
    Everything the function learns from code outside it (header check, name
    parsing, the rule chains, the selection policy, ECS insertion, the packet
    cache and the send to the backend) arrives as an input, and the step
    reports which of those calls it made. The exits are tried in a fixed
    order: header check, rules, self-answer, ECS failure, cache hit, no
    backend; only a query that passes all of them claims a slot. */
module Dispatch {
  import opened Wire
  import opened Slots

  /** `RCode::ServFail` (section 4.1.1 of RFC 1035). */
  const ServFail: nat := 2

  /** The DNS header fields the dispatcher reads and writes. */
  datatype Header = Header(id: U16, flags: Flags)

  /** The decoded query and where it came from. */
  datatype Query = Query(
    header: Header,
    qname: string,
    qtype: U16,
    qclass: U16,
    remote: Address,
    dest: Address,
    realTime: nat)

  /** What the query rule chain (`processQuery`) leaves behind: a drop, or
      the possibly rewritten header and the per-query settings. */
  datatype RuleVerdict =
    | RuleDrop
    | RulePass(header: Header, delayMsec: int, useECS: bool, skipCache: bool, addXPF: bool)

  /** Outcome of `handleEDNSClientSubnet`. */
  datatype EcsResult = EcsFailed | EcsDone(ednsAdded: bool, ecsAdded: bool)

  /** Outcome of the packet cache lookup; a miss still yields the key. */
  datatype CacheAnswer = CacheHit | CacheMiss(key: nat)

  /** The answers of the code `processDOHQuery` calls, for this one query. */
  datatype Env = Env(
    headerOk: bool,            // checkQueryHeaders
    parsed: bool,              // the question name parses (otherwise an exception ends the call)
    rules: RuleVerdict,        // processQuery
    muted: bool,               // the frontend is muted (`cs.muted`)
    responseRulesPass: bool,   // processResponse on whichever response path is taken
    selected: Option<nat>,     // the policy's choice, an index into the backends
    poolECS: bool,             // the pool's ECS default
    hasCache: bool,            // the pool has a packet cache
    ecs: EcsResult,
    cache: CacheAnswer,
    sendOk: bool,              // udpClientSendRequestToBackend did not fail
    clientFD: int,             // the frontend's descriptor, recorded as origFD
    local: Address)            // the frontend's listening address

  /** Process-wide settings. */
  datatype Config = Config(servFailOnNoPolicy: bool, staleCacheEntriesTTL: nat)

  /** Global counters (`g_stats`). */
  datatype Stats = Stats(
    selfAnswered: nat,
    cacheHits: nat,
    cacheMisses: nat,
    noPolicy: nat,
    downstreamTimeouts: nat,
    downstreamSendErrors: nat)

  datatype World = World(stats: Stats, backends: seq<Backend>)

  datatype DropReason = BadHeader | Unparsable | ByRules | ByResponseRules | Muted | EcsInsertFailed | NoBackend

  datatype Outcome =
    | Dropped(reason: DropReason)
    | SelfAnswered(response: Header)
    | CachedAnswer(unmuted: bool)   // `unmuted` is false when the frontend is muted
    | ServFailed(response: Header)
    | Forwarded(backend: nat, slot: nat, sent: Header, sendOk: bool)

  /** One call: the new state, how it ended, and which outside calls it made:
      whether ECS insertion was attempted, the `allowExpired` the cache was
      asked with (if it was asked), and whether an XPF record was added. */
  datatype Step = Step(world: World, outcome: Outcome, ecsAttempted: bool, cacheLookup: Option<nat>, xpfAdded: bool)

  /** The policy's choice names a backend with a slot table. */
  predicate ValidChoice(w: World, env: Env)
  {
    env.selected.Some? ==> env.selected.value < |w.backends| && |w.backends[env.selected.value].idStates| > 0
  }

  // The conditions under which the call gets past each exit, in order.

  predicate Admitted(env: Env)
  {
    env.headerOk && env.parsed && env.rules.RulePass?
  }

  predicate ToBackendPath(env: Env)
  {
    Admitted(env) && !env.rules.header.flags.qr
  }

  /** ECS is inserted when the query allows it and the chosen backend wants
      it, or, with no backend chosen, the pool does. */
  predicate WantsEcs(w: World, env: Env)
    requires ValidChoice(w, env) && Admitted(env)
  {
    env.rules.useECS
    && ((env.selected.Some? && w.backends[env.selected.value].useECS) || (env.selected.None? && env.poolECS))
  }

  predicate PastEcs(w: World, env: Env)
    requires ValidChoice(w, env)
  {
    ToBackendPath(env) && !(WantsEcs(w, env) && env.ecs.EcsFailed?)
  }

  predicate LooksUpCache(w: World, env: Env)
    requires ValidChoice(w, env)
  {
    PastEcs(w, env) && env.hasCache && !env.rules.skipCache
  }

  predicate PastCache(w: World, env: Env)
    requires ValidChoice(w, env)
  {
    PastEcs(w, env) && !(LooksUpCache(w, env) && env.cache.CacheHit?)
  }

  /** Self-answer path: the rules turned the query into a response. The
      flags are restored first; a muted frontend stops there. The send of
      the response is commented out in the source, so the response is only
      prepared, and counted. */
  function SelfAnswer(w: World, h: Header, origFlags: Flags, env: Env, restore: (Flags, Flags) -> Flags): (s: Step)
    ensures s.outcome.SelfAnswered? ==> s.outcome.response == Header(h.id, restore(h.flags, origFlags))
    ensures s.outcome.SelfAnswered? <==> !env.muted && env.responseRulesPass
    ensures s.outcome.SelfAnswered? ==> s.world == w.(stats := w.stats.(selfAnswered := w.stats.selfAnswered + 1))
    ensures !s.outcome.SelfAnswered? ==> s.world == w && s.outcome.Dropped?
  {
    var response := Header(h.id, restore(h.flags, origFlags));
    if env.muted then Step(w, Dropped(Muted), false, None, false)
    else if !env.responseRulesPass then Step(w, Dropped(ByResponseRules), false, None, false)
    else Step(w.(stats := w.stats.(selfAnswered := w.stats.selfAnswered + 1)), SelfAnswered(response), false, None, false)
  }

  /** No backend: count it, and prepare a SERVFAIL response when so
      configured (its send is commented out in the source). */
  function NoBackendExit(w: World, h: Header, origFlags: Flags, env: Env, cfg: Config,
                         restore: (Flags, Flags) -> Flags, ecs: bool, lookup: Option<nat>): (s: Step)
    ensures s.world == w.(stats := w.stats.(noPolicy := w.stats.noPolicy + 1))
    ensures s.outcome.ServFailed? <==> cfg.servFailOnNoPolicy && !env.muted && env.responseRulesPass
    ensures s.outcome.ServFailed? ==>
              && s.outcome.response.id == h.id
              && s.outcome.response.flags.qr
              && s.outcome.response.flags.rcode == ServFail
              && s.outcome.response.flags.rest == restore(h.flags, origFlags).rest
    ensures !s.outcome.ServFailed? ==> s.outcome.Dropped?
  {
    var w' := w.(stats := w.stats.(noPolicy := w.stats.noPolicy + 1));
    if cfg.servFailOnNoPolicy && !env.muted then
      var response := Header(h.id, restore(h.flags, origFlags).(rcode := ServFail, qr := true));
      if env.responseRulesPass then Step(w', ServFailed(response), ecs, lookup, false)
      else Step(w', Dropped(ByResponseRules), ecs, lookup, false)
    else Step(w', Dropped(NoBackend), ecs, lookup, false)
  }

  /** Forward to backend `i`: count the query, claim a slot, rewrite the ID
      to the slot index, send, and count a failed send. */
  function Forward(w: World, i: nat, q: Query, rv: RuleVerdict, env: Env, cacheKey: nat,
                   ednsAdded: bool, ecsAdded: bool, ecs: bool, lookup: Option<nat>): (s: Step)
    requires i < |w.backends| && |w.backends[i].idStates| > 0
    requires rv.RulePass?
    ensures s.outcome.Forwarded? && s.outcome.backend == i && s.outcome.sendOk == env.sendOk
    ensures |s.world.backends| == |w.backends|
    ensures forall j :: 0 <= j < |w.backends| && j != i ==> s.world.backends[j] == w.backends[j]
    ensures s.xpfAdded <==> rv.addXPF && w.backends[i].xpfRRCode != 0
    ensures s.ecsAttempted == ecs && s.cacheLookup == lookup
    ensures s.world.stats == w.stats.(
              downstreamTimeouts := s.world.stats.downstreamTimeouts,
              downstreamSendErrors := w.stats.downstreamSendErrors + (if env.sendOk then 0 else 1))
    ensures var b := w.backends[i];
            s.world.stats.downstreamTimeouts == w.stats.downstreamTimeouts + (if InUse(b.idStates[b.idOffset % |b.idStates|]) then 1 else 0)
    ensures var b := w.backends[i];
            var b' := s.world.backends[i];
            var occupied := InUse(b.idStates[b.idOffset % |b.idStates|]);
            && |b'.idStates| == |b.idStates|
            && s.outcome.slot == b.idOffset % |b.idStates|
            && (forall k :: 0 <= k < |b.idStates| && k != s.outcome.slot ==> b'.idStates[k] == b.idStates[k])
            && b'.outstanding == b.outstanding + (if occupied then 0 else 1)
            && b'.reuseds == b.reuseds + (if occupied then 1 else 0)
    ensures var b := w.backends[i];
            var b' := s.world.backends[i];
            && s.outcome.slot == b.idOffset % |b.idStates|
            && s.outcome.sent == Header(WireId(s.outcome.slot), rv.header.flags)
            && b'.queries == b.queries + 1
            && b'.idOffset == b.idOffset + 1
            && b'.sendErrors == (if env.sendOk then b.sendErrors else b.sendErrors + 1)
            && b'.idStates[s.outcome.slot].origID == rv.header.id
            && b'.idStates[s.outcome.slot].origFlags == q.header.flags
            && b'.idStates[s.outcome.slot].age == 0
            && b'.idStates[s.outcome.slot].cacheKey == cacheKey
            && b'.idStates[s.outcome.slot].skipCache == rv.skipCache
            && b'.idStates[s.outcome.slot].ednsAdded == ednsAdded
            && b'.idStates[s.outcome.slot].ecsAdded == ecsAdded
  {
    var b := w.backends[i];
    var xpf := rv.addXPF && b.xpfRRCode != 0;
    var counted := b.(queries := b.queries + 1);
    var claimant := Claimant(env.clientFD, rv.header.id, q.remote, q.dest, env.local, q.realTime,
                             q.qname, q.qtype, q.qclass, rv.delayMsec, q.header.flags, cacheKey,
                             rv.skipCache, env.hasCache, ednsAdded, ecsAdded);
    var c := Claim(counted, claimant);
    var b' := if env.sendOk then c.backend else c.backend.(sendErrors := c.backend.sendErrors + 1);
    var stats := w.stats.(
      downstreamTimeouts := w.stats.downstreamTimeouts + (if c.reused then 1 else 0),
      downstreamSendErrors := w.stats.downstreamSendErrors + (if env.sendOk then 0 else 1));
    Step(World(stats, w.backends[i := b']),
         Forwarded(i, c.index, Header(WireId(c.index), rv.header.flags), env.sendOk),
         ecs, lookup, xpf)
  }

  /** From the backend selection on (`processDOHQuery` past the rules):
      ECS insertion, the cache, and then the no-backend exit or the forward. */
  function Route(w: World, q: Query, env: Env, cfg: Config, restore: (Flags, Flags) -> Flags): (s: Step)
    requires ValidChoice(w, env) && ToBackendPath(env)
    ensures s.outcome.Forwarded? <==> PastCache(w, env) && env.selected.Some?
    ensures s.outcome.Forwarded? ==> s.outcome.backend == env.selected.value
    ensures !s.outcome.Forwarded? ==>
              && s.world.backends == w.backends
              && s.world.stats.downstreamSendErrors == w.stats.downstreamSendErrors
              && s.world.stats.downstreamTimeouts == w.stats.downstreamTimeouts
    ensures s.ecsAttempted <==> WantsEcs(w, env)
    ensures s.cacheLookup.Some? <==> LooksUpCache(w, env)
    ensures s.cacheLookup.Some? ==> s.cacheLookup.value == if env.selected.Some? then 0 else cfg.staleCacheEntriesTTL
    ensures s.xpfAdded <==> s.outcome.Forwarded? && env.rules.addXPF && w.backends[env.selected.value].xpfRRCode != 0
  {
    var h := env.rules.header;
    var ecs := WantsEcs(w, env);
    if ecs && env.ecs.EcsFailed? then Step(w, Dropped(EcsInsertFailed), true, None, false)
    else
      var ednsAdded := ecs && env.ecs.ednsAdded;
      var ecsAdded := ecs && env.ecs.ecsAdded;
      var lookup := if env.hasCache && !env.rules.skipCache
                    then Some(if env.selected.Some? then 0 else cfg.staleCacheEntriesTTL)
                    else None;
      if lookup.Some? && env.cache.CacheHit? then
        if env.responseRulesPass
        then Step(w.(stats := w.stats.(cacheHits := w.stats.cacheHits + 1)), CachedAnswer(!env.muted), ecs, lookup, false)
        else Step(w, Dropped(ByResponseRules), ecs, lookup, false)
      else
        var w' := if lookup.Some? then w.(stats := w.stats.(cacheMisses := w.stats.cacheMisses + 1)) else w;
        var key := if lookup.Some? then env.cache.key else 0;
        match env.selected
        case None => NoBackendExit(w', h, q.header.flags, env, cfg, restore, ecs, lookup)
        case Some(i) => Forward(w', i, q, env.rules, env, key, ednsAdded, ecsAdded, ecs, lookup)
  }

  /** `processDOHQuery`. `restore` stands for `restoreFlags`, which is not
      part of this model. */
  function ProcessDohQuery(w: World, q: Query, env: Env, cfg: Config, restore: (Flags, Flags) -> Flags): (s: Step)
    requires ValidChoice(w, env)
    // Only a query past every exit reaches a backend, and only the chosen one.
    ensures s.outcome.Forwarded? <==> PastCache(w, env) && env.selected.Some?
    ensures s.outcome.Forwarded? ==> s.outcome.backend == env.selected.value
    // No slot is claimed and no backend or backend-related counter moves on
    // any other path.
    ensures !s.outcome.Forwarded? ==>
              && s.world.backends == w.backends
              && s.world.stats.downstreamSendErrors == w.stats.downstreamSendErrors
              && s.world.stats.downstreamTimeouts == w.stats.downstreamTimeouts
    // ECS insertion is attempted exactly when the query gets past the rules
    // and the query, and the chosen backend or else the pool, ask for it.
    ensures s.ecsAttempted <==> ToBackendPath(env) && WantsEcs(w, env)
    // The cache is consulted past the ECS step when there is one and the
    // query does not skip it; stale entries only when no backend was chosen.
    ensures s.cacheLookup.Some? <==> LooksUpCache(w, env)
    ensures s.cacheLookup.Some? ==> s.cacheLookup.value == if env.selected.Some? then 0 else cfg.staleCacheEntriesTTL
    ensures s.xpfAdded <==> s.outcome.Forwarded? && env.rules.addXPF && w.backends[env.selected.value].xpfRRCode != 0
  {
    if !env.headerOk then Step(w, Dropped(BadHeader), false, None, false)
    else if !env.parsed then Step(w, Dropped(Unparsable), false, None, false)
    else if env.rules.RuleDrop? then Step(w, Dropped(ByRules), false, None, false)
    else if env.rules.header.flags.qr then SelfAnswer(w, env.rules.header, q.header.flags, env, restore)
    else Route(w, q, env, cfg, restore)
  }

  /** The early exits: a bad header, an unparsable name, a drop by the rules
      and a failed ECS insertion end the call with nothing counted and no
      backend touched. */
  lemma EarlyExits(w: World, q: Query, env: Env, cfg: Config, restore: (Flags, Flags) -> Flags)
    requires ValidChoice(w, env)
    ensures var s := ProcessDohQuery(w, q, env, cfg, restore);
            && (!env.headerOk ==> s == Step(w, Dropped(BadHeader), false, None, false))
            && (env.headerOk && !env.parsed ==> s == Step(w, Dropped(Unparsable), false, None, false))
            && (env.headerOk && env.parsed && env.rules.RuleDrop? ==> s == Step(w, Dropped(ByRules), false, None, false))
            && (ToBackendPath(env) && WantsEcs(w, env) && env.ecs.EcsFailed? ==>
                  s == Step(w, Dropped(EcsInsertFailed), true, None, false))
  {
  }

  /** A query the rules turned into a response becomes the self-answered
      outcome, with its flags restored, unless the frontend is muted or the
      response rules drop it; only that outcome counts as self-answered. */
  lemma SelfAnswerPath(w: World, q: Query, env: Env, cfg: Config, restore: (Flags, Flags) -> Flags)
    requires ValidChoice(w, env)
    ensures var s := ProcessDohQuery(w, q, env, cfg, restore);
            && (s.outcome.SelfAnswered? <==>
                  Admitted(env) && env.rules.header.flags.qr && !env.muted && env.responseRulesPass)
            && (s.outcome.SelfAnswered? ==>
                  && s.outcome.response == Header(env.rules.header.id, restore(env.rules.header.flags, q.header.flags))
                  && s.world == w.(stats := w.stats.(selfAnswered := w.stats.selfAnswered + 1)))
            && (Admitted(env) && env.rules.header.flags.qr && !s.outcome.SelfAnswered? ==> s.world == w)
            && s.world.stats.selfAnswered == w.stats.selfAnswered + (if s.outcome.SelfAnswered? then 1 else 0)
  {
  }

  /** A cache hit the response rules accept ends the call and is counted
      once, whether or not the frontend is muted (the outcome records which);
      a lookup that misses is counted as a miss and the query goes on. */
  lemma CachePath(w: World, q: Query, env: Env, cfg: Config, restore: (Flags, Flags) -> Flags)
    requires ValidChoice(w, env)
    ensures var s := ProcessDohQuery(w, q, env, cfg, restore);
            && (s.outcome.CachedAnswer? <==> LooksUpCache(w, env) && env.cache.CacheHit? && env.responseRulesPass)
            && (s.outcome.CachedAnswer? ==> s.outcome.unmuted == !env.muted)
            && (LooksUpCache(w, env) && env.cache.CacheHit? ==> s.world.backends == w.backends && !s.outcome.Forwarded?)
            && s.world.stats.cacheHits == w.stats.cacheHits + (if s.outcome.CachedAnswer? then 1 else 0)
            && s.world.stats.cacheMisses == w.stats.cacheMisses + (if LooksUpCache(w, env) && env.cache.CacheMiss? then 1 else 0)
  {
  }

  /** With no backend chosen the query is counted under `noPolicy`; when so
      configured and not muted it is answered SERVFAIL: same ID, flags
      restored, then QR set and the response code replaced. */
  lemma NoBackendPath(w: World, q: Query, env: Env, cfg: Config, restore: (Flags, Flags) -> Flags)
    requires ValidChoice(w, env)
    ensures var s := ProcessDohQuery(w, q, env, cfg, restore);
            && s.world.stats.noPolicy == w.stats.noPolicy + (if PastCache(w, env) && env.selected.None? then 1 else 0)
            && (s.outcome.ServFailed? <==>
                  PastCache(w, env) && env.selected.None? && cfg.servFailOnNoPolicy && !env.muted && env.responseRulesPass)
            && (s.outcome.ServFailed? ==>
                  var restored := restore(env.rules.header.flags, q.header.flags);
                  && s.outcome.response.id == env.rules.header.id
                  && s.outcome.response.flags == restored.(qr := true, rcode := ServFail))
  {
  }

  /** A forwarded query: one more query on the chosen backend, the slot at
      its cursor claimed for this query and the cursor advanced, the ID the
      backend sees rewritten to the slot index, a reused slot counted as a
      downstream timeout, and a failed send counted on the backend and
      globally. No other backend changes. */
  lemma ForwardPath(w: World, q: Query, env: Env, cfg: Config, restore: (Flags, Flags) -> Flags)
    requires ValidChoice(w, env)
    requires PastCache(w, env) && env.selected.Some?
    ensures var s := ProcessDohQuery(w, q, env, cfg, restore);
            var i := env.selected.value;
            var b := w.backends[i];
            var slot := b.idOffset % |b.idStates|;
            var occupied := InUse(b.idStates[slot]);
            && s.outcome == Forwarded(i, slot, Header(WireId(slot), env.rules.header.flags), env.sendOk)
            && |s.world.backends| == |w.backends|
            && (forall j :: 0 <= j < |w.backends| && j != i ==> s.world.backends[j] == w.backends[j])
            && var b' := s.world.backends[i];
               && |b'.idStates| == |b.idStates|
               && b'.queries == b.queries + 1
               && b'.idOffset == b.idOffset + 1
               && b'.idStates[slot].origID == env.rules.header.id
               && b'.idStates[slot].origFlags == q.header.flags
               && b'.idStates[slot].age == 0
               && b'.idStates[slot].cacheKey == (if LooksUpCache(w, env) then env.cache.key else 0)
               && b'.idStates[slot].skipCache == env.rules.skipCache
               && b'.idStates[slot].ednsAdded == (WantsEcs(w, env) && env.ecs.ednsAdded)
               && b'.idStates[slot].ecsAdded == (WantsEcs(w, env) && env.ecs.ecsAdded)
               && (forall k :: 0 <= k < |b.idStates| && k != slot ==> b'.idStates[k] == b.idStates[k])
               && b'.outstanding == b.outstanding + (if occupied then 0 else 1)
               && b'.reuseds == b.reuseds + (if occupied then 1 else 0)
               && s.world.stats.downstreamTimeouts == w.stats.downstreamTimeouts + (if occupied then 1 else 0)
               && b'.sendErrors == b.sendErrors + (if env.sendOk then 0 else 1)
               && s.world.stats.downstreamSendErrors == w.stats.downstreamSendErrors + (if env.sendOk then 0 else 1)
  {
  }
}

=== FILE: dohparams.dfy ===
/** DNS-over-HTTPS GET handling of `all_test` in pdns/dnsdistdist/doh.cc: the
    DNS message travels base64url-encoded in the `dns` query variable
    (section 4.1 of RFC 8484); the handler cuts the value out of the request
    path and maps the base64url alphabet back to the standard base64 one
    (section 5 of RFC 4648) before decoding it. */
module DohParams {
  import opened Wire

  /** The five characters that must open the query string. */
  const DnsPrefix: string := "?dns="

  /** The characters that end the value: the space `strchr` looks for and the
      NUL at which the value is copied into a `std::string`. */
  predicate IsTerminator(c: char)
  {
    c == ' ' || c == '\0'
  }

  /** The value as the code keeps it: the text up to the first terminator. */
  function CutValue(s: string): (v: string)
    ensures v <= s
    ensures forall i :: 0 <= i < |v| ==> !IsTerminator(v[i])
    ensures |v| < |s| ==> IsTerminator(s[|v|])
  {
    if |s| == 0 || IsTerminator(s[0]) then [] else [s[0]] + CutValue(s[1..])
  }

  /** The `dns` value of a request path whose query string starts at
      `queryAt` (absent when the path has no `?`): present only when more
      than five characters follow `queryAt` and they open with `?dns=`. */
  function DnsValue(path: string, queryAt: Option<nat>): (r: Option<string>)
    requires queryAt.Some? ==> queryAt.value <= |path|
    ensures r.Some? <==> queryAt.Some? && |path| - queryAt.value > |DnsPrefix|
                         && path[queryAt.value..queryAt.value + |DnsPrefix|] == DnsPrefix
    ensures r.Some? ==> var rest := path[queryAt.value + |DnsPrefix|..];
                        && r.value <= rest
                        && (forall i :: 0 <= i < |r.value| ==> !IsTerminator(r.value[i]))
                        && (|r.value| < |rest| ==> IsTerminator(rest[|r.value|]))
  {
    match queryAt
    case None => None
    case Some(q) =>
      if |path| - q > |DnsPrefix| && path[q..q + |DnsPrefix|] == DnsPrefix
      then Some(CutValue(path[q + |DnsPrefix|..]))
      else None
  }

  /** `boost::replace_all` with one-character patterns: every occurrence of
      `from` becomes `to`. */
  function ReplaceChar(s: string, from: char, to: char): (r: string)
    ensures |r| == |s|
    ensures forall i :: 0 <= i < |s| ==> r[i] == if s[i] == from then to else s[i]
  {
    if |s| == 0 then [] else [if s[0] == from then to else s[0]] + ReplaceChar(s[1..], from, to)
  }

  /** The two alphabet differences of section 5 of RFC 4648. */
  function UrlToStdChar(c: char): char
  {
    if c == '-' then '+' else if c == '_' then '/' else c
  }

  function StdToUrlChar(c: char): char
  {
    if c == '+' then '-' else if c == '/' then '_' else c
  }

  /** The two replacements of `all_test`, `-` to `+` then `_` to `/`: a
      character-for-character map that adds no padding. */
  function UrlToStd(s: string): (r: string)
    ensures |r| == |s|
    ensures forall i :: 0 <= i < |s| ==> r[i] == UrlToStdChar(s[i])
    ensures forall i :: 0 <= i < |r| ==> r[i] != '-' && r[i] != '_'
  {
    ReplaceChar(ReplaceChar(s, '-', '+'), '_', '/')
  }

  /** The encoder-side map, from standard base64 to base64url. */
  function StdToUrl(s: string): (r: string)
    ensures |r| == |s|
    ensures forall i :: 0 <= i < |s| ==> r[i] == StdToUrlChar(s[i])
    ensures forall i :: 0 <= i < |r| ==> r[i] != '+' && r[i] != '/'
  {
    ReplaceChar(ReplaceChar(s, '+', '-'), '/', '_')
  }

  /** Text in the base64url alphabet survives the round trip through the
      standard alphabet. */
  lemma UrlRoundTrip(s: string)
    requires forall i :: 0 <= i < |s| ==> s[i] != '+' && s[i] != '/'
    ensures StdToUrl(UrlToStd(s)) == s
  {
  }

  /** Standard base64 text survives the round trip through base64url. */
  lemma StdRoundTrip(t: string)
    requires forall i :: 0 <= i < |t| ==> t[i] != '-' && t[i] != '_'
    ensures UrlToStd(StdToUrl(t)) == t
  {
  }

  /** Mapping twice changes nothing more. */
  lemma UrlToStdIdempotent(s: string)
    ensures UrlToStd(UrlToStd(s)) == UrlToStd(s)
  {
  }

  /** What `all_test` does with a request. */
  datatype Handled =
    | NotDnsQuery           // no `?dns=` value: nothing happens
    | DecodeFailed          // the value is not valid base64 after the mapping
    | ParseFailed           // the decoded message's question name does not parse: the exception escapes
    | Queued(query: seq<Byte>)  // the decoded message is handed to the dispatcher

  /** `all_test`; `decode` stands for `B64Decode`, `None` for its failure, and
      `parses` for whether the `DNSName` built from the decoded message
      succeeds rather than throwing. */
  function AllTest(path: string, queryAt: Option<nat>, decode: string -> Option<seq<Byte>>,
                   parses: seq<Byte> -> bool): (h: Handled)
    requires queryAt.Some? ==> queryAt.value <= |path|
    ensures h.NotDnsQuery? <==> DnsValue(path, queryAt).None?
    ensures h.DecodeFailed? <==> DnsValue(path, queryAt).Some? && decode(UrlToStd(DnsValue(path, queryAt).value)).None?
    ensures h.ParseFailed? <==> DnsValue(path, queryAt).Some? && decode(UrlToStd(DnsValue(path, queryAt).value)).Some?
                                && !parses(decode(UrlToStd(DnsValue(path, queryAt).value)).value)
    ensures h.Queued? <==> DnsValue(path, queryAt).Some? && decode(UrlToStd(DnsValue(path, queryAt).value)).Some?
                           && parses(decode(UrlToStd(DnsValue(path, queryAt).value)).value)
    ensures h.Queued? ==> decode(UrlToStd(DnsValue(path, queryAt).value)) == Some(h.query)
  {
    match DnsValue(path, queryAt)
    case None => NotDnsQuery
    case Some(v) =>
      match decode(UrlToStd(v))
      case None => DecodeFailed
      case Some(q) => if parses(q) then Queued(q) else ParseFailed
  }
}

=== FILE: rawudp.dfy ===
/** The IPv4/UDP header arithmetic of pdns/rawudp.cc: splitting a captured
    datagram into endpoints and payload (`getPacket`), and the spoofed reply
    that `main` builds for a blocked query by swapping the endpoints, splicing
    in the recursor's answer and fixing up the lengths and the header checksum.

    Packets are the bytes of an IPv4 header (section 3.1 of RFC 791) followed
    by a UDP header (RFC 768) and the DNS message. */
module RawUdp {
  import opened Wire
  import Checksum

  /** `sizeof(struct udphdr)`: source port, destination port, length, checksum. */
  const UdpHeaderLen: nat := 8
  /** `sizeof(dnsheader)`: the fixed DNS header of section 4.1.1 of RFC 1035. */
  const DnsHeaderLen: nat := 12
  /** Size of the receive buffers (`char buffer[1500]`, `char verdict[1500]`),
      and of the slack added to the reply buffer. */
  const MaxDatagram: nat := 1500
  /** The port `main` treats as DNS. */
  const DnsPort: U16 := 53

  /** Byte offsets of the IPv4 header fields the code touches. */
  const IpLenOff: nat := 2
  const IpSumOff: nat := 10
  const IpSrcOff: nat := 12
  const IpDstOff: nat := 16
  /** The least IPv4 header: five 32-bit words. */
  const MinIhl: nat := 5

  /** Byte offsets of the UDP header fields, relative to the UDP header. */
  const UdpSportOff: nat := 0
  const UdpDportOff: nat := 2
  const UdpLenOff: nat := 4
  const UdpSumOff: nat := 6

  /** `ip_hl`: the low nibble of the first byte, in 32-bit words. */
  function Ihl(packet: seq<Byte>): nat
    requires |packet| >= 1
  {
    packet[0] % 16
  }

  /** Offset of the UDP header: `4 * ip_hl`. */
  function UdpStart(packet: seq<Byte>): nat
    requires |packet| >= 1
  {
    4 * Ihl(packet)
  }

  /** `startpos`: offset of the DNS payload, after the IP and UDP headers. */
  function PayloadStart(packet: seq<Byte>): nat
    requires |packet| >= 1
  {
    UdpStart(packet) + UdpHeaderLen
  }

  /** The capture holds every byte `getPacket` reads: the IP addresses and
      the whole UDP header. */
  predicate Readable(packet: seq<Byte>)
  {
    |packet| >= IpDstOff + 4 && PayloadStart(packet) <= |packet|
  }

  /** A readable capture whose header length is one RFC 791 allows, so the IP
      fields and the UDP header do not overlap. */
  predicate ValidHeader(packet: seq<Byte>)
  {
    Readable(packet) && Ihl(packet) >= MinIhl
  }

  /** An address and port in network byte order, as `getPacket` copies them
      into a `sockaddr_in`. */
  datatype Endpoint = Endpoint(addr: seq<Byte>, port: seq<Byte>)

  /** What `getPacket` hands back besides the whole packet. */
  datatype Capture = Capture(src: Endpoint, dst: Endpoint, payload: seq<Byte>)

  function SrcOf(packet: seq<Byte>): Endpoint
    requires Readable(packet)
  {
    var u := UdpStart(packet);
    Endpoint(packet[IpSrcOff..IpSrcOff + 4], packet[u + UdpSportOff..u + UdpSportOff + 2])
  }

  function DstOf(packet: seq<Byte>): Endpoint
    requires Readable(packet)
  {
    var u := UdpStart(packet);
    Endpoint(packet[IpDstOff..IpDstOff + 4], packet[u + UdpDportOff..u + UdpDportOff + 2])
  }

  /** `getPacket`: the endpoints come from the IP and UDP headers, and the
      payload is everything from `4 * ip_hl + 8` to the end of the packet. */
  function GetPacket(packet: seq<Byte>): (c: Capture)
    requires Readable(packet)
    ensures packet[..PayloadStart(packet)] + c.payload == packet
    ensures |c.payload| == |packet| - 4 * Ihl(packet) - UdpHeaderLen
    ensures |c.src.addr| == 4 && |c.dst.addr| == 4 && |c.src.port| == 2 && |c.dst.port| == 2
    ensures c.src.addr == packet[IpSrcOff..IpSrcOff + 4] && c.dst.addr == packet[IpDstOff..IpDstOff + 4]
    ensures BE16(c.src.port, 0) == BE16(packet, UdpStart(packet) + UdpSportOff)
    ensures BE16(c.dst.port, 0) == BE16(packet, UdpStart(packet) + UdpDportOff)
  {
    Capture(SrcOf(packet), DstOf(packet), packet[PayloadStart(packet)..])
  }

  /** The buffer `char p[packet.size() + 1500]` after the packet is copied
      in. Its tail is uninitialised in the C code; zeros stand in for it, and
      every tail byte that is emitted is overwritten first. */
  function Buffer(packet: seq<Byte>): (p: seq<Byte>)
    ensures |p| == |packet| + MaxDatagram
    ensures p[..|packet|] == packet
  {
    seq(|packet| + MaxDatagram, k requires 0 <= k < |packet| + MaxDatagram => if k < |packet| then packet[k] else 0)
  }

  /** Swap of two disjoint `n`-byte fields at offsets `a < b`, through a
      temporary as the code does. */
  function Swap(p: seq<Byte>, a: nat, b: nat, n: nat): (r: seq<Byte>)
    requires a + n <= b && b + n <= |p|
    ensures |r| == |p|
  {
    Put(Put(p, a, p[b..b + n]), b, p[a..a + n])
  }

  /** The reply buffer after every write of `main` except the checksum: the
      packet's endpoints swapped, the answer (with the query's DNS ID) copied
      behind the headers, the two length fields set and `ip_sum` zeroed. The
      buffer is the packet followed by 1500 bytes of slack. */
  function Prepared(packet: seq<Byte>, verdict: seq<Byte>): (p: seq<Byte>)
    requires ValidHeader(packet)
    requires PayloadStart(packet) + DnsHeaderLen <= |packet|
    requires DnsHeaderLen <= |verdict| <= MaxDatagram
    ensures |p| == |packet| + MaxDatagram
  {
    var u := UdpStart(packet);
    var start := PayloadStart(packet);
    var p1 := Swap(Buffer(packet), IpSrcOff, IpDstOff, 4);
    var p2 := Swap(p1, u + UdpSportOff, u + UdpDportOff, 2);
    var p3 := Put(p2, start, Put(verdict, 0, packet[start..start + 2]));
    var p4 := Put(p3, IpLenOff, ToBE16(start + |verdict|));
    var p5 := Put(p4, u + UdpLenOff, ToBE16(UdpHeaderLen + |verdict|));
    Put(p5, IpSumOff, [0, 0])
  }

  /** The reply `main` builds for a blocked query: `ip_sum` is computed over
      the prepared IP header, `uh_sum` is zeroed, and the first
      `startpos + len` bytes are emitted. */
  function SpoofReply(packet: seq<Byte>, verdict: seq<Byte>): (out: seq<Byte>)
    requires ValidHeader(packet)
    requires PayloadStart(packet) + DnsHeaderLen <= |packet|
    requires DnsHeaderLen <= |verdict| <= MaxDatagram
    ensures |out| == PayloadStart(packet) + |verdict|
  {
    var u := UdpStart(packet);
    var p6 := Prepared(packet, verdict);
    var p7 := Put(p6, IpSumOff, ToBE16(Checksum.Checksum(p6[..u])));
    var p8 := Put(p7, u + UdpSumOff, [0, 0]);
    p8[..PayloadStart(packet) + |verdict|]
  }

  /** What byte `i` of the prepared buffer holds, field by field. */
  function PreparedByte(packet: seq<Byte>, verdict: seq<Byte>, i: nat): Byte
    requires ValidHeader(packet)
    requires PayloadStart(packet) + DnsHeaderLen <= |packet|
    requires DnsHeaderLen <= |verdict| <= MaxDatagram
    requires i < PayloadStart(packet) + |verdict|
  {
    var u := UdpStart(packet);
    var start := PayloadStart(packet);
    if i < IpLenOff then packet[i]
    else if i < IpLenOff + 2 then ToBE16(start + |verdict|)[i - IpLenOff]
    else if i < IpSumOff then packet[i]
    else if i < IpSumOff + 2 then 0
    else if i < IpDstOff then packet[i + 4]
    else if i < IpDstOff + 4 then packet[i - 4]
    else if i < u then packet[i]
    else if i < u + UdpDportOff then packet[i + 2]
    else if i < u + UdpLenOff then packet[i - 2]
    else if i < u + UdpSumOff then ToBE16(UdpHeaderLen + |verdict|)[i - u - UdpLenOff]
    else if i < start + 2 then packet[i]
    else verdict[i - start]
  }

  lemma PreparedIpAt(packet: seq<Byte>, verdict: seq<Byte>, i: nat)
    requires ValidHeader(packet)
    requires PayloadStart(packet) + DnsHeaderLen <= |packet|
    requires DnsHeaderLen <= |verdict| <= MaxDatagram
    requires i < UdpStart(packet)
    ensures Prepared(packet, verdict)[i] == PreparedByte(packet, verdict, i)
  {
    var u := UdpStart(packet);
    var start := PayloadStart(packet);
    var b := Buffer(packet);
    var p1 := Swap(b, IpSrcOff, IpDstOff, 4);
    assert p1[i] == if IpSrcOff <= i < IpDstOff then b[i + 4] else if IpDstOff <= i < IpDstOff + 4 then b[i - 4] else b[i];
    var p2 := Swap(p1, u + UdpSportOff, u + UdpDportOff, 2);
    assert p2[i] == p1[i];
    var p3 := Put(p2, start, Put(verdict, 0, packet[start..start + 2]));
    assert p3[i] == p2[i];
    var p4 := Put(p3, IpLenOff, ToBE16(start + |verdict|));
    var p5 := Put(p4, u + UdpLenOff, ToBE16(UdpHeaderLen + |verdict|));
    assert p5[i] == p4[i];
  }

  lemma PreparedUdpAt(packet: seq<Byte>, verdict: seq<Byte>, i: nat)
    requires ValidHeader(packet)
    requires PayloadStart(packet) + DnsHeaderLen <= |packet|
    requires DnsHeaderLen <= |verdict| <= MaxDatagram
    requires UdpStart(packet) <= i < PayloadStart(packet)
    ensures Prepared(packet, verdict)[i] == PreparedByte(packet, verdict, i)
  {
    var u := UdpStart(packet);
    var p1 := Swap(Buffer(packet), IpSrcOff, IpDstOff, 4);
    assert p1[u..u + 4] == packet[u..u + 4];
    if i < u + UdpLenOff {
      var p2 := Swap(p1, u + UdpSportOff, u + UdpDportOff, 2);
      assert p2[i] == if i < u + 2 then p1[i + 2] else p1[i - 2];
    }
  }

  lemma PreparedPayloadAt(packet: seq<Byte>, verdict: seq<Byte>, i: nat)
    requires ValidHeader(packet)
    requires PayloadStart(packet) + DnsHeaderLen <= |packet|
    requires DnsHeaderLen <= |verdict| <= MaxDatagram
    requires PayloadStart(packet) <= i < PayloadStart(packet) + |verdict|
    ensures Prepared(packet, verdict)[i] == PreparedByte(packet, verdict, i)
  {
  }

  /** Byte `i` of the prepared buffer, field by field. */
  lemma PreparedAt(packet: seq<Byte>, verdict: seq<Byte>, i: nat)
    requires ValidHeader(packet)
    requires PayloadStart(packet) + DnsHeaderLen <= |packet|
    requires DnsHeaderLen <= |verdict| <= MaxDatagram
    requires i < PayloadStart(packet) + |verdict|
    ensures Prepared(packet, verdict)[i] == PreparedByte(packet, verdict, i)
  {
    if i < UdpStart(packet) {
      PreparedIpAt(packet, verdict, i);
    } else if i < PayloadStart(packet) {
      PreparedUdpAt(packet, verdict, i);
    } else {
      PreparedPayloadAt(packet, verdict, i);
    }
  }

  /** A header byte that the reply rewrites: the total length, the header
      checksum, the two addresses, or anything in the UDP header. */
  predicate Rewritten(packet: seq<Byte>, k: nat)
    requires |packet| >= 1
  {
    || IpLenOff <= k < IpLenOff + 2
    || IpSumOff <= k < IpSumOff + 2
    || IpSrcOff <= k < IpDstOff + 4
    || UdpStart(packet) <= k < PayloadStart(packet)
  }

  /** The emitted reply is the prepared buffer with the header checksum and
      the zero UDP checksum filled in. */
  lemma ReplyAt(packet: seq<Byte>, verdict: seq<Byte>, i: nat)
    requires ValidHeader(packet)
    requires PayloadStart(packet) + DnsHeaderLen <= |packet|
    requires DnsHeaderLen <= |verdict| <= MaxDatagram
    requires i < PayloadStart(packet) + |verdict|
    ensures var u := UdpStart(packet);
            var h := Prepared(packet, verdict)[..u];
            SpoofReply(packet, verdict)[i]
              == if IpSumOff <= i < IpSumOff + 2 then ToBE16(Checksum.Checksum(h))[i - IpSumOff]
                 else if u + UdpSumOff <= i < u + UdpSumOff + 2 then 0
                 else PreparedByte(packet, verdict, i)
  {
    PreparedAt(packet, verdict, i);
  }

  /** The reply's IP header is the prepared header with its checksum filled in. */
  lemma ReplyHeader(packet: seq<Byte>, verdict: seq<Byte>)
    requires ValidHeader(packet)
    requires PayloadStart(packet) + DnsHeaderLen <= |packet|
    requires DnsHeaderLen <= |verdict| <= MaxDatagram
    ensures var h := Prepared(packet, verdict)[..UdpStart(packet)];
            && h[IpSumOff] == 0 && h[IpSumOff + 1] == 0
            && SpoofReply(packet, verdict)[..UdpStart(packet)] == Put(h, IpSumOff, ToBE16(Checksum.Checksum(h)))
  {
    var u := UdpStart(packet);
    var h := Prepared(packet, verdict)[..u];
    var out := SpoofReply(packet, verdict);
    var want := Put(h, IpSumOff, ToBE16(Checksum.Checksum(h)));
    PreparedAt(packet, verdict, IpSumOff);
    PreparedAt(packet, verdict, IpSumOff + 1);
    forall k | 0 <= k < u
      ensures out[k] == want[k]
    {
      ReplyAt(packet, verdict, k);
      PreparedAt(packet, verdict, k);
    }
    assert out[..u] == want;
  }

  /** Section 1 of RFC 1071: the checksum over the reply's IP header, checksum
      field included, comes out as zero, so a receiver accepts it; and the
      field holds the checksum of the header with that field zeroed. */
  lemma SpoofReplyChecksum(packet: seq<Byte>, verdict: seq<Byte>)
    requires ValidHeader(packet)
    requires PayloadStart(packet) + DnsHeaderLen <= |packet|
    requires DnsHeaderLen <= |verdict| <= MaxDatagram
    ensures var out := SpoofReply(packet, verdict);
            && Checksum.Checksum(out[..UdpStart(packet)]) == 0
            && BE16(out, IpSumOff) == Checksum.Checksum(Put(out[..UdpStart(packet)], IpSumOff, [0, 0]))
  {
    var u := UdpStart(packet);
    var h := Prepared(packet, verdict)[..u];
    var out := SpoofReply(packet, verdict);
    ReplyHeader(packet, verdict);
    Checksum.ChecksumVerifies(h, IpSumOff);
    assert Put(out[..u], IpSumOff, [0, 0]) == h;
    assert out[IpSumOff..IpSumOff + 2] == out[..u][IpSumOff..IpSumOff + 2];
  }

  /** Outside the two checksum fields the reply is the prepared buffer. */
  lemma ReplyOutsideSums(packet: seq<Byte>, verdict: seq<Byte>)
    requires ValidHeader(packet)
    requires PayloadStart(packet) + DnsHeaderLen <= |packet|
    requires DnsHeaderLen <= |verdict| <= MaxDatagram
    ensures var out := SpoofReply(packet, verdict);
            var u := UdpStart(packet);
            forall k :: 0 <= k < |out| && !(IpSumOff <= k < IpSumOff + 2) && !(u + UdpSumOff <= k < u + UdpSumOff + 2)
                   ==> out[k] == PreparedByte(packet, verdict, k)
  {
    var out := SpoofReply(packet, verdict);
    var u := UdpStart(packet);
    forall k | 0 <= k < |out| && !(IpSumOff <= k < IpSumOff + 2) && !(u + UdpSumOff <= k < u + UdpSumOff + 2)
      ensures out[k] == PreparedByte(packet, verdict, k)
    {
      ReplyAt(packet, verdict, k);
    }
  }

  /** The endpoint rewrite of `main`: addresses and ports swapped, and every
      header byte outside the rewritten fields as captured. */
  lemma SpoofReplySwaps(packet: seq<Byte>, verdict: seq<Byte>)
    requires ValidHeader(packet)
    requires PayloadStart(packet) + DnsHeaderLen <= |packet|
    requires DnsHeaderLen <= |verdict| <= MaxDatagram
    ensures var out := SpoofReply(packet, verdict);
            var u := UdpStart(packet);
            && out[IpSrcOff..IpSrcOff + 4] == packet[IpDstOff..IpDstOff + 4]
            && out[IpDstOff..IpDstOff + 4] == packet[IpSrcOff..IpSrcOff + 4]
            && out[u + UdpSportOff..u + UdpSportOff + 2] == packet[u + UdpDportOff..u + UdpDportOff + 2]
            && out[u + UdpDportOff..u + UdpDportOff + 2] == packet[u + UdpSportOff..u + UdpSportOff + 2]
            && (forall k :: 0 <= k < PayloadStart(packet) && !Rewritten(packet, k) ==> out[k] == packet[k])
  {
    var out := SpoofReply(packet, verdict);
    var u := UdpStart(packet);
    ReplyOutsideSums(packet, verdict);
    assert out[IpSrcOff..IpSrcOff + 4] == packet[IpDstOff..IpDstOff + 4];
    assert out[IpDstOff..IpDstOff + 4] == packet[IpSrcOff..IpSrcOff + 4];
    assert out[u + UdpSportOff..u + UdpSportOff + 2] == packet[u + UdpDportOff..u + UdpDportOff + 2];
    assert out[u + UdpDportOff..u + UdpDportOff + 2] == packet[u + UdpSportOff..u + UdpSportOff + 2];
  }

  /** The length and payload rewrite of `main`: `ip_len` and `uh_ulen` count
      the answer, `uh_sum` is zero, and the answer follows the headers under
      the query's DNS ID. */
  lemma SpoofReplyLengths(packet: seq<Byte>, verdict: seq<Byte>)
    requires ValidHeader(packet)
    requires PayloadStart(packet) + DnsHeaderLen <= |packet|
    requires DnsHeaderLen <= |verdict| <= MaxDatagram
    ensures var out := SpoofReply(packet, verdict);
            var u := UdpStart(packet);
            var start := PayloadStart(packet);
            && BE16(out, IpLenOff) == start + |verdict|
            && BE16(out, u + UdpLenOff) == UdpHeaderLen + |verdict|
            && BE16(out, u + UdpSumOff) == 0
            && out[start..] == packet[start..start + 2] + verdict[2..]
  {
    var out := SpoofReply(packet, verdict);
    var u := UdpStart(packet);
    var start := PayloadStart(packet);
    ReplyOutsideSums(packet, verdict);
    assert out[IpLenOff..IpLenOff + 2] == ToBE16(start + |verdict|);
    assert out[u + UdpLenOff..u + UdpLenOff + 2] == ToBE16(UdpHeaderLen + |verdict|);
    ReplyAt(packet, verdict, u + UdpSumOff);
    ReplyAt(packet, verdict, u + UdpSumOff + 1);
    assert out[start..] == packet[start..start + 2] + verdict[2..];
  }

  /** Capturing the reply gives back the query's endpoints reversed and, as
      payload, the recursor's answer under the query's DNS ID. */
  lemma SpoofReplyRoundTrip(packet: seq<Byte>, verdict: seq<Byte>)
    requires ValidHeader(packet)
    requires PayloadStart(packet) + DnsHeaderLen <= |packet|
    requires DnsHeaderLen <= |verdict| <= MaxDatagram
    ensures var out := SpoofReply(packet, verdict);
            var query := GetPacket(packet);
            && ValidHeader(out)
            && GetPacket(out).src == query.dst
            && GetPacket(out).dst == query.src
            && GetPacket(out).payload[..2] == query.payload[..2]
            && GetPacket(out).payload[2..] == verdict[2..]
  {
    var out := SpoofReply(packet, verdict);
    var u := UdpStart(packet);
    var start := PayloadStart(packet);
    ReplyAt(packet, verdict, 0);
    assert UdpStart(out) == u && PayloadStart(out) == start;
    SpoofReplySwaps(packet, verdict);
    SpoofReplyLengths(packet, verdict);
    assert SrcOf(out) == DstOf(packet);
    assert DstOf(out) == SrcOf(packet);
    var payload := out[start..];
    assert GetPacket(out).payload == payload;
    assert payload == packet[start..start + 2] + verdict[2..];
    assert payload[..2] == packet[start..start + 2] == GetPacket(packet).payload[..2];
  }

  /** The reply as a whole: its headers are where the query's were, its IPv4
      header checksum verifies, and its payload is the recursor's answer under
      the query's DNS ID. */
  lemma SpoofReplyVerdict(packet: seq<Byte>, verdict: seq<Byte>)
    requires ValidHeader(packet)
    requires PayloadStart(packet) + DnsHeaderLen <= |packet|
    requires DnsHeaderLen <= |verdict| <= MaxDatagram
    ensures var out := SpoofReply(packet, verdict);
            && |out| == PayloadStart(packet) + |verdict|
            && ValidHeader(out)
            && UdpStart(out) == UdpStart(packet)
            && GetPacket(out).src == GetPacket(packet).dst
            && GetPacket(out).dst == GetPacket(packet).src
            && GetPacket(out).payload == GetPacket(packet).payload[..2] + verdict[2..]
            && Checksum.Checksum(out[..UdpStart(out)]) == 0
  {
    var out := SpoofReply(packet, verdict);
    ReplyAt(packet, verdict, 0);
    assert UdpStart(out) == UdpStart(packet);
    SpoofReplyRoundTrip(packet, verdict);
    SpoofReplyChecksum(packet, verdict);
    var p := GetPacket(out).payload;
    assert p == p[..2] + p[2..];
  }

  /** What `main` does with one captured packet. */
  datatype Action =
    | Ignore          // not addressed to port 53: reported, nothing sent
    | PassOn(packet: seq<Byte>)   // not blocked: the capture is sent on unchanged
    | Spoof(reply: seq<Byte>)     // blocked: the spoofed answer goes back to the client

  /** The destination port of a capture, in host order. */
  function DstPort(packet: seq<Byte>): U16
    requires Readable(packet)
  {
    BE16(packet, UdpStart(packet) + UdpDportOff)
  }

  /** One iteration of `main`'s loop, after the capture: only queries to port
      53 are handled; `blocked` is what the recursor's answer (`verdict`)
      showed. The parsers need a full DNS header in the query and in the
      answer; the rewrite of a blocked query needs a header of at least five
      words. */
  function HandleCapture(packet: seq<Byte>, blocked: bool, verdict: seq<Byte>): (a: Action)
    requires Readable(packet)
    requires DstPort(packet) == DnsPort && blocked ==> Ihl(packet) >= MinIhl
    requires DstPort(packet) == DnsPort ==> PayloadStart(packet) + DnsHeaderLen <= |packet|
    requires DstPort(packet) == DnsPort ==> DnsHeaderLen <= |verdict| <= MaxDatagram
    ensures a.Ignore? <==> DstPort(packet) != DnsPort
    ensures a.PassOn? <==> DstPort(packet) == DnsPort && !blocked
    ensures a.PassOn? ==> a.packet == packet
    ensures a.Spoof? ==> && |a.reply| == PayloadStart(packet) + |verdict|
                         && ValidHeader(a.reply)
                         && GetPacket(a.reply).src == GetPacket(packet).dst
                         && GetPacket(a.reply).dst == GetPacket(packet).src
                         && GetPacket(a.reply).payload == GetPacket(packet).payload[..2] + verdict[2..]
                         && Checksum.Checksum(a.reply[..UdpStart(a.reply)]) == 0
  {
    if DstPort(packet) != DnsPort then Ignore
    else if blocked then
      SpoofReplyVerdict(packet, verdict);
      Spoof(SpoofReply(packet, verdict))
    else PassOn(packet)
  }
}

=== FILE: slots.dfy ===
/** The per-backend table of in-flight queries (`idStates`) and the claim of
    a slot in `processDOHQuery` (pdns/dnsdistdist/doh.cc). A forwarded query
    takes the slot at the backend's cursor `idOffset` modulo the table size,
    whether or not that slot still holds an unanswered query, and the DNS ID
    field (section 4.1.1 of RFC 1035) is set to the low 16 bits of the slot
    index, in host byte order, so that the answer, which echoes the field,
    leads straight back to the slot. */
module Slots {
  import opened Wire

  /** A client or listening address; the dispatch code only looks at whether
      its address family is set. */
  datatype Address = Address(family: nat, host: seq<Byte>, port: U16)

  /** The DNS header flag word: the response bit, the response code, and the
      remaining bits, which the dispatch code only copies. */
  datatype Flags = Flags(qr: bool, rcode: nat, rest: nat)

  /** One slot (`IDState`). It is in use while `origFD` holds a descriptor
      (is not negative). */
  datatype IdState = IdState(
    origFD: int,
    age: nat,
    origID: U16,
    origRemote: Address,
    origDest: Address,
    destHarvested: bool,
    sentTime: nat,
    qname: string,
    qtype: U16,
    qclass: U16,
    delayMsec: int,
    origFlags: Flags,
    cacheKey: nat,
    skipCache: bool,
    hasPacketCache: bool,
    ednsAdded: bool,
    ecsAdded: bool)

  predicate InUse(s: IdState)
  {
    s.origFD >= 0
  }

  /** A backend server (`DownstreamState`) with its counters and slot table. */
  datatype Backend = Backend(
    queries: nat,
    outstanding: nat,
    reuseds: nat,
    sendErrors: nat,
    idOffset: nat,
    idStates: seq<IdState>,
    useECS: bool,
    xpfRRCode: U16)

  /** Everything the dispatcher records about the query being forwarded. */
  datatype Claimant = Claimant(
    fd: int,
    id: U16,
    remote: Address,
    dest: Address,
    local: Address,
    sentTime: nat,
    qname: string,
    qtype: U16,
    qclass: U16,
    delayMsec: int,
    origFlags: Flags,
    cacheKey: nat,
    skipCache: bool,
    hasPacketCache: bool,
    ednsAdded: bool,
    ecsAdded: bool)

  /** Result of a claim: the updated backend, the slot index, and whether the
      slot still held an unanswered query that is now abandoned. */
  datatype Claimed = Claimed(backend: Backend, index: nat, reused: bool)

  /** The slot as the claim leaves it. The destination is the address the
      query was really sent to when that is known (its family is set), and
      the frontend's listening address otherwise. */
  function Fill(c: Claimant): (s: IdState)
    ensures s.age == 0
    ensures s.destHarvested <==> c.dest.family != 0
  {
    IdState(c.fd, 0, c.id, c.remote, if c.dest.family != 0 then c.dest else c.local,
            c.dest.family != 0, c.sentTime, c.qname, c.qtype, c.qclass, c.delayMsec,
            c.origFlags, c.cacheKey, c.skipCache, c.hasPacketCache, c.ednsAdded, c.ecsAdded)
  }

  /** Claim the slot at the cursor. */
  function Claim(b: Backend, c: Claimant): (r: Claimed)
    requires |b.idStates| > 0
    ensures r.index == b.idOffset % |b.idStates|
    ensures r.backend.idOffset == b.idOffset + 1
    ensures |r.backend.idStates| == |b.idStates|
    ensures r.reused <==> InUse(b.idStates[r.index])
    ensures !r.reused ==> r.backend.outstanding == b.outstanding + 1 && r.backend.reuseds == b.reuseds
    ensures r.reused ==> r.backend.reuseds == b.reuseds + 1 && r.backend.outstanding == b.outstanding
    ensures var s := r.backend.idStates[r.index];
            && s.age == 0 && s.origFD == c.fd && s.origID == c.id && s.origFlags == c.origFlags
            && s.origRemote == c.remote && s.qname == c.qname && s.qtype == c.qtype && s.qclass == c.qclass
            && s.cacheKey == c.cacheKey && s.skipCache == c.skipCache
            && s.ednsAdded == c.ednsAdded && s.ecsAdded == c.ecsAdded
            && s.origDest == (if c.dest.family != 0 then c.dest else c.local)
            && s.destHarvested == (c.dest.family != 0)
            && s.sentTime == c.sentTime && s.delayMsec == c.delayMsec && s.hasPacketCache == c.hasPacketCache
    ensures forall j :: 0 <= j < |b.idStates| && j != r.index ==> r.backend.idStates[j] == b.idStates[j]
    ensures r.backend.queries == b.queries && r.backend.sendErrors == b.sendErrors
    ensures r.backend.useECS == b.useECS && r.backend.xpfRRCode == b.xpfRRCode
  {
    var idx := b.idOffset % |b.idStates|;
    var reused := InUse(b.idStates[idx]);
    var b' := b.(idOffset := b.idOffset + 1,
                 idStates := b.idStates[idx := Fill(c)],
                 outstanding := if reused then b.outstanding else b.outstanding + 1,
                 reuseds := if reused then b.reuseds + 1 else b.reuseds);
    Claimed(b', idx, reused)
  }

  /** The DNS ID field of the forwarded query: `dh->id = idOffset` keeps the
      low 16 bits of the slot index. There is no `htons`, so this is the
      field's value in host byte order, not the ID as read off the wire. */
  function WireId(index: nat): U16
  {
    index % 0x1_0000
  }

  /** With at most 65536 slots the ID is the slot index itself, so the
      backend's answer, which echoes the ID, names the slot that holds the
      client's original ID and flags. */
  lemma ClaimCorrelates(b: Backend, c: Claimant)
    requires 0 < |b.idStates| <= 0x1_0000
    ensures var r := Claim(b, c);
            && WireId(r.index) == r.index
            && r.backend.idStates[WireId(r.index)].origID == c.id
            && r.backend.idStates[WireId(r.index)].origFlags == c.origFlags
  {
  }

  /** `n` claims in a row on one backend for the same query context. */
  function ClaimMany(b: Backend, c: Claimant, n: nat): (b': Backend)
    requires |b.idStates| > 0
    ensures |b'.idStates| == |b.idStates|
    ensures b'.idOffset == b.idOffset + n
    ensures b'.outstanding + b'.reuseds == b.outstanding + b.reuseds + n
  {
    if n == 0 then b else Claim(ClaimMany(b, c, n - 1), c).backend
  }

  predicate AllFree(b: Backend)
  {
    forall j :: 0 <= j < |b.idStates| ==> !InUse(b.idStates[j])
  }

  lemma MulBounds(k: int, size: int)
    requires size > 0
    ensures k >= 1 ==> k * size >= size
    ensures k <= -1 ==> k * size <= -size
  {
    if k >= 1 {
      assert k * size == (k - 1) * size + size;
    } else if k <= -1 {
      assert k * size == (k + 1) * size - size;
    }
  }

  /** Euclidean remainder is determined by any quotient/remainder split. */
  lemma ModUnique(a: int, size: int, q: int, r: int)
    requires size > 0 && 0 <= r < size && a == q * size + r
    ensures a % size == r
  {
    var q0 := a / size;
    var r0 := a % size;
    assert a == q0 * size + r0;
    assert (q - q0) * size == r0 - r;
    MulBounds(q - q0, size);
  }

  /** The slot `n` steps past cursor `start` is the only one at that
      distance from it. */
  lemma NextSlotIsNew(start: nat, n: nat, size: nat, j: nat)
    requires 0 <= n < size && j < size
    ensures (j - start) % size == n <==> j == (start + n) % size
  {
    var idx := (start + n) % size;
    var q := (start + n) / size;
    assert start + n == q * size + idx;
    ModUnique(idx - start, size, -q, n);
    if (j - start) % size == n {
      var q' := (j - start) / size;
      assert j - start == q' * size + n;
      assert (q' + q) * size == q' * size + q * size;
      ModUnique(j, size, q' + q, idx);
      ModUnique(j, size, 0, j);
    }
  }

  /** The slots in use are exactly those within distance `n` of cursor
      `start`, walking forward around the table. */
  predicate InFlightRun(states: seq<IdState>, start: nat, n: nat)
  {
    forall j :: 0 <= j < |states| ==> (InUse(states[j]) <==> (j - start) % |states| < n)
  }

  /** One claim at distance `n` from the starting cursor extends the run of
      occupied slots by exactly that slot, which was free. */
  lemma OccupancyStep(prev: Backend, c: Claimant, start: nat, n: nat)
    requires 0 <= n < |prev.idStates| && c.fd >= 0
    requires prev.idOffset == start + n
    requires InFlightRun(prev.idStates, start, n)
    ensures !Claim(prev, c).reused
    ensures InFlightRun(Claim(prev, c).backend.idStates, start, n + 1)
  {
    var size := |prev.idStates|;
    var r := Claim(prev, c);
    NextSlotIsNew(start, n, size, r.index);
    forall j | 0 <= j < size
      ensures InUse(r.backend.idStates[j]) <==> (j - start) % size < n + 1
    {
      NextSlotIsNew(start, n, size, j);
    }
  }

  /** Starting from a table with no query in flight, claims by a frontend
      with a real descriptor fill fresh slots one after the other: the first
      `n <= size` claims raise `outstanding` by `n`, count no reuse, and leave
      in use exactly the slots within distance `n` of the starting cursor. */
  lemma {:induction false} ClaimsFromIdle(b: Backend, c: Claimant, n: nat)
    requires |b.idStates| > 0 && AllFree(b) && c.fd >= 0
    requires n <= |b.idStates|
    ensures var b' := ClaimMany(b, c, n);
            && b'.outstanding == b.outstanding + n
            && b'.reuseds == b.reuseds
            && InFlightRun(b'.idStates, b.idOffset, n)
  {
    if n == 0 {
      assert ClaimMany(b, c, 0) == b;
      forall j | 0 <= j < |b.idStates|
        ensures !InUse(b.idStates[j]) && (j - b.idOffset) % |b.idStates| >= 0
      {
      }
    } else {
      var prev := ClaimMany(b, c, n - 1);
      ClaimsFromIdle(b, c, n - 1);
      OccupancyStep(prev, c, b.idOffset, n - 1);
      assert ClaimMany(b, c, n) == Claim(prev, c).backend;
    }
  }

  /** After as many claims as there are slots,
      without any answer, the next claim lands on a slot still in use; it
      counts exactly one reuse and leaves `outstanding` where it was. */
  lemma {:induction false} ClaimPastCapacityReuses(b: Backend, c: Claimant)
    requires |b.idStates| > 0 && AllFree(b) && c.fd >= 0
    ensures var full := ClaimMany(b, c, |b.idStates|);
            var r := Claim(full, c);
            && r.reused
            && r.backend.reuseds == b.reuseds + 1
            && r.backend.outstanding == b.outstanding + |b.idStates|
  {
    var size := |b.idStates|;
    var full := ClaimMany(b, c, size);
    ClaimsFromIdle(b, c, size);
    var r := Claim(full, c);
    assert (r.index - b.idOffset) % size < size;
    assert InUse(full.idStates[r.index]);
  }

  /** The other half of the three lemmas above: a frontend whose descriptor
      is negative leaves every slot it claims looking free, so from an idle
      table no claim, however many, counts as a reuse, and `outstanding`
      grows with every claim, past the table size too. */
  lemma {:induction false} ClaimsWithoutDescriptor(b: Backend, c: Claimant, n: nat)
    requires |b.idStates| > 0 && AllFree(b) && c.fd < 0
    ensures var b' := ClaimMany(b, c, n);
            && AllFree(b')
            && b'.reuseds == b.reuseds
            && b'.outstanding == b.outstanding + n
            && !Claim(b', c).reused
  {
    if n > 0 {
      var prev := ClaimMany(b, c, n - 1);
      ClaimsWithoutDescriptor(b, c, n - 1);
      assert ClaimMany(b, c, n) == Claim(prev, c).backend;
    }
  }
}

=== FILE: wire.dfy ===
/** Shared vocabulary for the byte-level parts of the model: optional values,
    octets, 16-bit fields in network byte order and in-place writes into a
    buffer. */
module Wire {

  datatype Option<T> = None | Some(value: T)

  /** One octet of a packet. */
  type Byte = b: int | 0 <= b < 0x100

  /** An unsigned 16-bit quantity (a `uint16_t` of the C code). */
  type U16 = x: int | 0 <= x < 0x1_0000

  /** The value of the 16-bit field at offset `i`, read in network byte order
      (what `ntohs` of a `memcpy`'d word yields). */
  function BE16(s: seq<Byte>, i: nat): U16
    requires i + 2 <= |s|
  {
    (s[i] as int) * 0x100 + s[i + 1] as int
  }

  /** The two bytes `htons(v)` leaves in memory. */
  function ToBE16(v: U16): (r: seq<Byte>)
    ensures |r| == 2
    ensures BE16(r, 0) == v
  {
    [v / 0x100, v % 0x100]
  }

  /** `memcpy(p + off, bytes, |bytes|)`: overwrite part of a buffer in place. */
  function Put(p: seq<Byte>, off: nat, bytes: seq<Byte>): (r: seq<Byte>)
    requires off + |bytes| <= |p|
    ensures |r| == |p|
  {
    seq(|p|, k requires 0 <= k < |p| => if off <= k < off + |bytes| then bytes[k - off] else p[k])
  }
}
